=== FILE: README.md ===
# Disposition protocol of a RabbitMQ consumer worker with a dead-letter queue

This project models, in Dafny, how the worker settles each delivery it
receives. Two consumers share one broker channel:

- the **main consumer** classifies each message by a case-insensitive search
  for the failure marker `hata`. A marked message is rejected without requeue,
  so the broker routes it to the dead-letter exchange. Any other message is
  recorded in the Redis hash `messages:success` under its delivery tag, then
  acknowledged singly. An exception inside that block is caught and answered by
  a reject without requeue.
- the **dead-letter consumer** records every delivery it gets in the hash
  `dlq:reviewed_messages` as `DLQ REVIEWED`, then acknowledges it. It has no
  exception guard.

Each handler is a pure function of the decoded message, the delivery tag, the
receipt timestamp (a string) and an **outcome oracle**. The oracle says, for
the n-th external call of the run (hash write, ack or reject), whether it
succeeds or throws. A handler returns a `Run`: every call it attempted, whether
each one completed, and whether an exception escaped the handler. The audit
store is a `map<string, map<string, string>>`. The completed writes of a run are
applied to it in order. A hash-field set reports "created" exactly when the
field was absent before; the handlers only log that flag.

Modules (one file each):

- `Text` (`text.dfy`): the case-insensitive substring test.
- `Deliveries` (`deliveries.dfy`): deliveries, the 64-bit tag, and its decimal field name.
- `AuditStore` (`audit_store.dfy`): the hash store and its field set.
- `Effects` (`effects.dfy`): calls, the oracle, runs, and how completed writes change the store.
- `MainConsumer` (`main_consumer.dfy`): the main handler.
- `DeadLetterConsumer` (`dead_letter_consumer.dfy`): the dead-letter handler.
- `Pipeline` (`pipeline.dfy`): both handlers together, and the worked scenarios.

The dead-letter consumer has no exception guard around its write and its ack
(Worker.cs:109-112). A throwing write therefore leaves the delivery
unacknowledged and the exception escapes the handler; a throwing ack escapes
too (`DeadLetterConsumer.Handle`).

## Model

| member | source | states |
|---|---|---|
| Text.ContainsFolded | RabbitMQConsumerWorker/Worker.cs:65 | the executable marker test is true exactly when some offset of the text holds the pattern, ignoring ASCII letter case |
| Text.CaseBlindText | RabbitMQConsumerWorker/Worker.cs:65 | two texts that differ only in letter case contain exactly the same patterns |
| MainConsumer.MarkedMessagesFail | RabbitMQConsumerWorker/Worker.cs:65 | any message containing the marker in any letter case, with any text around it, is classified as failed |
| MainConsumer.ClassificationIgnoresTagAndCase | RabbitMQConsumerWorker/Worker.cs:65 | classification ignores letter case, and the calls made and their outcomes do not depend on the delivery tag |
| Pipeline.MarkerCaseVariantsFail | RabbitMQConsumerWorker/Worker.cs:65 | messages containing `hata`, `HATA` or `Hata` are all classified as failed |
| Deliveries.ToDecimal | RabbitMQConsumerWorker/Worker.cs:58 | a tag's field name is a non-empty run of decimal digits with no redundant leading zero |
| Deliveries.ParseToDecimal | RabbitMQConsumerWorker/Worker.cs:58 | parsing a tag's field name gives back the tag |
| Deliveries.ToDecimalOfParse | RabbitMQConsumerWorker/Worker.cs:58 | every canonical digit string is the field name of the number it denotes |
| Deliveries.TagFieldsDistinct | RabbitMQConsumerWorker/Worker.cs:58 | distinct delivery tags give distinct audit fields |
| AuditStore.HashSet | RabbitMQConsumerWorker/Worker.cs:77 | a hash-field set stores the value, reports "created" exactly when the field was absent, and changes no other field |
| AuditStore.HashSetOverwrites | RabbitMQConsumerWorker/Worker.cs:77-79 | writing a field twice reports "not new" the second time and leaves the store as the second write alone would |
| AuditStore.HashSetsCommute | RabbitMQConsumerWorker/Worker.cs:77 | writes to different fields give the same store in either order |
| Effects.ApplyKeepsUntouched | RabbitMQConsumerWorker/Worker.cs:77 | a field that no completed write targets keeps its value |
| Effects.ApplyLastWriteWins | RabbitMQConsumerWorker/Worker.cs:77 | the last completed write to a field decides its value |
| Effects.ApplyAgreeingWrites | RabbitMQConsumerWorker/Worker.cs:77 | when every write to a field stores the same value, the field holds it if written at all, else keeps its old value |
| MainConsumer.GuardedBlock | RabbitMQConsumerWorker/Worker.cs:63-83 | the guarded block stops at the first throw, and each call completes exactly when the environment lets it; it settles the delivery exactly once when nothing throws and not at all otherwise; a marked message gets only a reject; an unmarked one gets the success record, followed by a single ack whenever the write completes |
| MainConsumer.Handle | RabbitMQConsumerWorker/Worker.cs:55-92 | never requeues, acks singly, settles only its own tag, and writes only its own success record, as the first call if at all; at most one ack or reject takes effect, and exactly one unless an exception escapes; a marked message is rejected first, with no write and no ack; an unmarked message is recorded first |
| MainConsumer.HandleFailsClosed | RabbitMQConsumerWorker/Worker.cs:63-91 | an ack is tried only right after the success record was written; every call that throws is followed by a reject without requeue, except a throw from that fallback reject, which escapes; nothing else lets an exception escape |
| MainConsumer.HandleFollowsTable | RabbitMQConsumerWorker/Worker.cs:63-91 | the handler's calls and outcomes follow a five-row decision table indexed by the classification and the first three call outcomes |
| MainConsumer.MainAudit | RabbitMQConsumerWorker/Worker.cs:61-80 | a marked message, or a failed write, leaves the store unchanged; otherwise the success hash holds `timestamp - message` under the tag's decimal string; no other field changes |
| DeadLetterConsumer.Handle | RabbitMQConsumerWorker/Worker.cs:99-114 | writes only the review record, first, and the write completes exactly when the environment lets it; a completed write is always followed by one single ack of its own tag, whose outcome decides whether an exception escapes; never rejects; at most one ack takes effect, and exactly one unless an exception escapes; a failed write is the only call, so there is no ack and the exception escapes |
| DeadLetterConsumer.DeadLetterAudit | RabbitMQConsumerWorker/Worker.cs:106-109 | a completed write leaves `timestamp - DLQ REVIEWED: message` under the tag's decimal string; a failed one leaves the store unchanged; no other field changes, and the success hash is never touched |
| Pipeline.MarkedMessageEndsReviewed | RabbitMQConsumerWorker/Worker.cs:65-109 | a marked message that the main consumer settles is rejected without requeue and leaves the store unchanged; when the dead-letter write succeeds, its dead-lettered copy ends up in the reviewed hash and is acked exactly when the ack succeeds, with the success hash untouched |
| Pipeline.CleanMessageRecordedAndAcked | RabbitMQConsumerWorker/Worker.cs:72-82 | when every call succeeds, an unmarked message causes exactly its success record and then a single ack |
| Pipeline.FailedOrderScenario | RabbitMQConsumerWorker/Worker.cs:65-112 | `order #1 failed: hata occurred` is only rejected without requeue; its dead-lettered copy is recorded as reviewed and acked |
| Pipeline.ShippedOrderIsClean | RabbitMQConsumerWorker/Worker.cs:65 | `order #2 shipped` does not contain the marker |
| Pipeline.ShippedOrderScenario | RabbitMQConsumerWorker/Worker.cs:58-80 | `order #2 shipped` is recorded as `<timestamp> - order #2 shipped` under its tag, then acked |
| Pipeline.StoreDownScenario | RabbitMQConsumerWorker/Worker.cs:77-89 | when the store write throws, an unmarked message is only rejected without requeue and the store is unchanged |
| Pipeline.AckFailureAfterRecord | RabbitMQConsumerWorker/Worker.cs:77-89 | when the record is written but the ack throws, the run holds both the success record and a reject for the same tag |
| Pipeline.RedeliveredTagOverwrites | RabbitMQConsumerWorker/Worker.cs:58-80 | after two clean deliveries with the same tag are handled, the success hash holds the second record, and the second write finds the field already present (reports "not new") |
| Pipeline.DistinctTagsKeepBothRecords | RabbitMQConsumerWorker/Worker.cs:58-80 | two clean deliveries with different tags both keep their success records |

## Left out

- Redis and broker connection setup, and the early return when Redis is unreachable (Worker.cs:16-37). This is network I/O.
- Exchange and queue declaration and binding (Worker.cs:41-49). This also covers the broker's dead-letter routing. `Pipeline` takes the dead-lettered copy as a new delivery, with its own tag, given as an input.
- Consumer registration (Worker.cs:93, 116), the keep-alive loop (Worker.cs:123-126) and shutdown cleanup (Worker.cs:132-138). These are lifecycle plumbing.
- Console output, console colours and logger calls. The model treats them as never throwing. In the source, a throw from a console call inside the guarded block would also lead to the fallback reject. A throw from one before that reject (Worker.cs:86-87) would escape without it; a throw from the colour reset after it (Worker.cs:90) would escape once the reject was sent.
- UTF-8 decoding of the body (Worker.cs:57). The handlers take the decoded text as input.
- `DateTimeOffset.UtcNow:o` formatting (Worker.cs:61, 106). The handlers take the timestamp string as input.
- Text.ContainsFolded: approximates the culture-aware, case-ignoring comparison (`StringComparison.CurrentCultureIgnoreCase`) with an ASCII case fold. The culture's rules for non-ASCII characters and for ignorable characters are not modelled.
- A call that throws is taken to have had no effect. In the source, a hash write can time out after Redis applied it (Worker.cs:77, 109), and an ack or reject can reach the broker before its exception is raised. The model does not cover these partial outcomes.
- MainConsumer.MainAudit: promises an unchanged store when the write throws only under the assumption above; a timed-out write that Redis applied would leave the success record in place.
- MainConsumer.Handle: counts at most one ack or reject as taking effect only under the assumption above; an ack that reached the broker and then threw would be followed by a reject of the same tag.
- DeadLetterConsumer.DeadLetterAudit: promises an unchanged store when the review write throws only under the assumption above; a timed-out write that Redis applied would leave the review record in place.
- Pipeline.StoreDownScenario: promises an unchanged store only under the assumption above.
- DeadLetterConsumer.Handle: counts an ack that threw as not having taken effect, under the assumption above.
- Concurrent handler runs, and the one channel shared by both consumers. The model runs one delivery at a time.
- The "created" flag of a hash-field set. It is modelled as "the field was absent before", but the handlers only log it, so no handler contract depends on it.
- The queue and exchange names in RabbitMqConfig.cs. No modelled behaviour depends on them.

=== FILE: audit_store.dfy ===
/**
 The audit store: a key-value store of named hashes, each mapping fields to
 string values, written only through a hash-field set. The consumers never read
 it back; it exists so that every disposition is observable from outside.
 */
module AuditStore {

  datatype Option<T> = None | Some(value: T)

  /** The hash that records deliveries the main consumer processed. */
  const SuccessHash: string := "messages:success"

  /** The hash that records deliveries the dead-letter consumer reviewed. */
  const ReviewedHash: string := "dlq:reviewed_messages"

  /** Hash name to (field to value). */
  type Store = map<string, map<string, string>>

  /** The value stored under `field` of `hash`, if any. */
  function Lookup(store: Store, hash: string, field: string): Option<string> {
    if hash in store && field in store[hash] then Some(store[hash][field]) else None
  }

  /** The store after a hash-field set, and whether the field was new to its hash. */
  datatype SetResult = SetResult(store: Store, created: bool)

  /**
   A hash-field set: creates the hash if absent, then sets the field, overwriting
   any earlier value (last writer wins). `created` reports whether the field was
   absent before the write.
   */
  function HashSet(store: Store, hash: string, field: string, value: string): (r: SetResult)
    ensures Lookup(r.store, hash, field) == Some(value)
    ensures r.created <==> Lookup(store, hash, field) == None
    ensures forall h, f :: (h != hash || f != field) ==> Lookup(r.store, h, f) == Lookup(store, h, f)
    ensures r.store.Keys == store.Keys + {hash}
  {
    var fields := if hash in store then store[hash] else map[];
    SetResult(store[hash := fields[field := value]], field !in fields)
  }

  /** Two stores are equal exactly when every lookup agrees and they hold the same hashes. */
  lemma StoreExtensionality(a: Store, b: Store)
    requires a.Keys == b.Keys
    requires forall h, f :: Lookup(a, h, f) == Lookup(b, h, f)
    ensures a == b
  {
    forall h | h in a
      ensures a[h] == b[h]
    {
      forall f | f in a[h]
        ensures f in b[h] && a[h][f] == b[h][f]
      {
        assert Lookup(a, h, f) == Lookup(b, h, f);
      }
      forall f | f in b[h]
        ensures f in a[h]
      {
        assert Lookup(a, h, f) == Lookup(b, h, f);
      }
    }
  }

  /**
   Writing the same field twice: the second write reports "not new" and the store
   ends up as if only the second write had happened.
   */
  lemma HashSetOverwrites(store: Store, hash: string, field: string, v1: string, v2: string)
    ensures !HashSet(HashSet(store, hash, field, v1).store, hash, field, v2).created
    ensures HashSet(HashSet(store, hash, field, v1).store, hash, field, v2).store
         == HashSet(store, hash, field, v2).store
  {
    var twice := HashSet(HashSet(store, hash, field, v1).store, hash, field, v2).store;
    var once := HashSet(store, hash, field, v2).store;
    StoreExtensionality(twice, once);
  }

  /** Writes to different fields (of the same or different hashes) commute. */
  lemma HashSetsCommute(store: Store, h1: string, f1: string, v1: string, h2: string, f2: string, v2: string)
    requires h1 != h2 || f1 != f2
    ensures HashSet(HashSet(store, h1, f1, v1).store, h2, f2, v2).store
         == HashSet(HashSet(store, h2, f2, v2).store, h1, f1, v1).store
  {
    var a := HashSet(HashSet(store, h1, f1, v1).store, h2, f2, v2).store;
    var b := HashSet(HashSet(store, h2, f2, v2).store, h1, f1, v1).store;
    StoreExtensionality(a, b);
  }
}

=== FILE: dead_letter_consumer.dfy ===
/**
 The dead-letter consumer's handler for one delivery. It records the delivery
 as reviewed in the reviewed-messages hash and then acknowledges it. It has no
 exception guard: if the audit write throws, no ack is sent and the exception
 escapes the handler; if the ack throws, that exception escapes too.
 */
module DeadLetterConsumer {
  import opened Deliveries
  import opened AuditStore
  import opened Effects

  /** The audit value for a reviewed dead letter: the receipt timestamp, " - DLQ REVIEWED: ", then the message. */
  function ReviewValue(timestamp: string, message: string): string {
    timestamp + " - DLQ REVIEWED: " + message
  }

  /** The audit write for a reviewed dead letter, keyed by the tag's decimal string. */
  function ReviewRecord(d: Delivery, timestamp: string): Effect {
    HSet(ReviewedHash, ToDecimal(d.tag), ReviewValue(timestamp, d.message))
  }

  /**
   The whole handler for one dead-lettered delivery, `timestamp` standing for
   the receipt time and `oracle` for the outcome of each external call.
   */
  function Handle(d: Delivery, timestamp: string, oracle: Oracle): (run: Run)
    ensures 1 <= |run.calls| <= 2
    // the review record is written first, and is the only write
    ensures run.calls[0].effect == ReviewRecord(d, timestamp)
    ensures WritesOnly(run.calls, ReviewRecord(d, timestamp))
    // never rejects; acks only this delivery, singly, and only once the record is written
    ensures NoReject(run.calls) && AcksSingly(run.calls) && SettlesOnly(run.calls, d.tag)
    ensures forall i :: 0 <= i < |run.calls| && run.calls[i].effect.Ack? ==>
      0 < i && run.calls[i - 1] == Call(ReviewRecord(d, timestamp), true)
    // no guard: the first exception escapes, and the delivery is acknowledged exactly when none does
    ensures run.escaped <==> !run.calls[|run.calls| - 1].ok
    ensures !run.escaped <==> DispositionCount(run.calls) == 1
    ensures DispositionCount(run.calls) <= 1
    // the audit write completes exactly when the environment lets it
    ensures run.calls[0].ok <==> OutcomeAt(oracle, 0) == Succeeds
    // a completed audit write is always followed by a single ack of this delivery
    ensures OutcomeAt(oracle, 0) == Succeeds ==>
      |run.calls| == 2 && run.calls[1] == Call(Ack(d.tag, false), OutcomeAt(oracle, 1) == Succeeds)
    // a failed audit write is the only call: the delivery stays unacknowledged and the exception escapes
    ensures OutcomeAt(oracle, 0) == Throws ==> run == Run([Call(ReviewRecord(d, timestamp), false)], true)
    ensures OutcomeAt(oracle, 0) == Throws ==> run.escaped && NoAck(run.calls)
  {
    var write := Invoke(oracle, 0, ReviewRecord(d, timestamp));
    if !write.ok then Run([write], true)
    else
      var ack := Invoke(oracle, 1, Ack(d.tag, false));
      DispositionCountAppend([write], [ack]);
      Run([write, ack], !ack.ok)
  }

  /**
   What the handler leaves in the audit store: the review record under the
   tag's decimal string once its write succeeds, the store unchanged when it
   throws, and no other field touched, the success hash in particular.
   */
  lemma DeadLetterAudit(store: Store, d: Delivery, timestamp: string, oracle: Oracle)
    ensures var after := Apply(store, Completed(Handle(d, timestamp, oracle).calls));
      && (OutcomeAt(oracle, 0) == Throws ==> after == store)
      && (OutcomeAt(oracle, 0) == Succeeds ==>
            Lookup(after, ReviewedHash, ToDecimal(d.tag)) == Some(ReviewValue(timestamp, d.message)))
      && (forall h, f :: (h != ReviewedHash || f != ToDecimal(d.tag)) ==> Lookup(after, h, f) == Lookup(store, h, f))
      && (forall f :: Lookup(after, SuccessHash, f) == Lookup(store, SuccessHash, f))
  {
    var run := Handle(d, timestamp, oracle);
    var es := Completed(run.calls);
    var record := ReviewRecord(d, timestamp);
    forall i | 0 <= i < |es| && es[i].HSet?
      ensures es[i] == record
    {
      assert es[i] in es;
    }
    forall h, f | h != ReviewedHash || f != ToDecimal(d.tag)
      ensures Lookup(Apply(store, es), h, f) == Lookup(store, h, f)
    {
      ApplyKeepsUntouched(store, es, h, f);
    }
    if OutcomeAt(oracle, 0) == Throws {
      assert es == [];
    } else {
      ApplyAgreeingWrites(store, es, ReviewedHash, ToDecimal(d.tag), record.value);
      assert record in es;
    }
  }
}

=== FILE: deliveries.dfy ===
/**
 Deliveries and their tags. The broker hands each delivery an unsigned 64-bit
 tag; both consumers key their audit record by the tag's decimal string, so
 distinct tags must give distinct fields.
 */
module Deliveries {

  /** The broker's delivery tag, an unsigned 64-bit integer. */
  type DeliveryTag = n: nat | n < 0x1_0000_0000_0000_0000

  /** One delivery as a handler sees it: the message body decoded as text, and the broker's tag. */
  datatype Delivery = Delivery(message: string, tag: DeliveryTag)

  predicate IsDigit(c: char) {
    '0' <= c <= '9'
  }

  /** The character for one decimal digit. */
  function DigitChar(d: nat): (c: char)
    requires d < 10
    ensures IsDigit(c) && (c as int) - ('0' as int) == d
  {
    (d + '0' as int) as char
  }

  /** The value of one decimal digit character. */
  function DigitValue(c: char): (d: nat)
    requires IsDigit(c)
    ensures d < 10 && DigitChar(d) == c
  {
    (c as int) - ('0' as int)
  }

  /** A non-empty run of decimal digits with no redundant leading zero. */
  predicate IsCanonicalDecimal(s: string) {
    && 0 < |s|
    && (forall i :: 0 <= i < |s| ==> IsDigit(s[i]))
    && (s[0] == '0' ==> |s| == 1)
  }

  /** The decimal rendering of `n`, as an unsigned integer's parameterless `ToString()` gives it. */
  function ToDecimal(n: nat): (s: string)
    ensures IsCanonicalDecimal(s)
    ensures n < 10 <==> |s| == 1
  {
    if n < 10 then [DigitChar(n)] else ToDecimal(n / 10) + [DigitChar(n % 10)]
  }

  /** Reads a run of decimal digits back as a number. */
  function ParseDecimal(s: string): nat
    requires forall i :: 0 <= i < |s| ==> IsDigit(s[i])
  {
    if |s| == 0 then 0 else 10 * ParseDecimal(s[..|s| - 1]) + DigitValue(s[|s| - 1])
  }

  /** Parsing inverts rendering. */
  lemma {:induction false} ParseToDecimal(n: nat)
    ensures ParseDecimal(ToDecimal(n)) == n
  {
    var s := ToDecimal(n);
    if n >= 10 {
      var head := ToDecimal(n / 10);
      assert s[..|s| - 1] == head;
      ParseToDecimal(n / 10);
    }
  }

  /** Rendering inverts parsing on canonical digit strings. */
  lemma {:induction false} ToDecimalOfParse(s: string)
    requires IsCanonicalDecimal(s)
    ensures ToDecimal(ParseDecimal(s)) == s
    decreases |s|
  {
    if |s| > 1 {
      var head := s[..|s| - 1];
      assert IsCanonicalDecimal(head);
      ToDecimalOfParse(head);
      if ParseDecimal(head) == 0 {
        // a canonical string of two or more digits does not start with zero
        ParseOfCanonicalPositive(head);
      }
    }
  }

  /** A canonical digit string longer than one digit denotes at least ten. */
  lemma {:induction false} ParseOfCanonicalPositive(s: string)
    requires IsCanonicalDecimal(s)
    ensures s[0] != '0' ==> ParseDecimal(s) > 0
    ensures |s| > 1 ==> ParseDecimal(s) >= 10
    decreases |s|
  {
    if |s| > 1 {
      var head := s[..|s| - 1];
      assert IsCanonicalDecimal(head) && head[0] == s[0];
      ParseOfCanonicalPositive(head);
    }
  }

  /** Distinct tags render to distinct audit fields. */
  lemma TagFieldsDistinct(a: DeliveryTag, b: DeliveryTag)
    requires a != b
    ensures ToDecimal(a) != ToDecimal(b)
  {
    ParseToDecimal(a);
    ParseToDecimal(b);
  }
}

=== FILE: effects.dfy ===
/**
 The external calls a consumer handler makes, the outcome oracle that decides
 whether each call succeeds or throws, and the trace of a handler run.
 */
module Effects {
  import opened AuditStore
  import opened Deliveries

  /** One call into the audit store or onto the broker channel. */
  datatype Effect =
    | HSet(hash: string, field: string, value: string)   // hash-field set in the audit store
    | Ack(tag: DeliveryTag, multiple: bool)               // acknowledge a delivery
    | Reject(tag: DeliveryTag, requeue: bool)             // reject a delivery

  /** A call that was made, and whether it completed (`ok`) or threw. */
  datatype Call = Call(effect: Effect, ok: bool)

  datatype CallOutcome = Succeeds | Throws

  /**
   The environment's answer for each external call of one handler run, by the
   call's position in the run; calls past the end of the list succeed.
   */
  type Oracle = seq<CallOutcome>

  function OutcomeAt(oracle: Oracle, n: nat): CallOutcome {
    if n < |oracle| then oracle[n] else Succeeds
  }

  /** Makes the `n`-th external call of a run. */
  function Invoke(oracle: Oracle, n: nat, e: Effect): (c: Call)
    ensures c.effect == e
    ensures c.ok <==> OutcomeAt(oracle, n) == Succeeds
  {
    Call(e, OutcomeAt(oracle, n) == Succeeds)
  }

  /** A handler run: every call it made, in order, and whether an exception escaped the handler. */
  datatype Run = Run(calls: seq<Call>, escaped: bool)

  predicate IsDisposition(e: Effect) {
    e.Ack? || e.Reject?
  }

  /** The effects that took place: the calls that completed, in order. */
  function Completed(calls: seq<Call>): (es: seq<Effect>)
    ensures |es| <= |calls|
    ensures forall e :: e in es <==> exists i :: 0 <= i < |calls| && calls[i].ok && calls[i].effect == e
  {
    if |calls| == 0 then []
    else
      var rest := Completed(calls[1..]);
      assert forall i :: 0 < i < |calls| ==> calls[i] == calls[1..][i - 1];
      if calls[0].ok then [calls[0].effect] + rest else rest
  }

  /** The completed effects of consecutive stretches of calls are consecutive. */
  lemma {:induction false} CompletedAppend(a: seq<Call>, b: seq<Call>)
    ensures Completed(a + b) == Completed(a) + Completed(b)
    decreases |a|
  {
    if |a| == 0 {
      assert a + b == b;
    } else {
      assert (a + b)[0] == a[0] && (a + b)[1..] == a[1..] + b;
      CompletedAppend(a[1..], b);
    }
  }

  /** The completed effects of a single call. */
  lemma CompletedSingle(c: Call)
    ensures Completed([c]) == if c.ok then [c.effect] else []
  {
  }

  /** How many completed calls settled a delivery (an ack or a reject). */
  function DispositionCount(calls: seq<Call>): nat {
    if |calls| == 0 then 0
    else (if calls[0].ok && IsDisposition(calls[0].effect) then 1 else 0) + DispositionCount(calls[1..])
  }

  /** Counting dispositions distributes over concatenation. */
  lemma {:induction false} DispositionCountAppend(a: seq<Call>, b: seq<Call>)
    ensures DispositionCount(a + b) == DispositionCount(a) + DispositionCount(b)
    decreases |a|
  {
    if |a| == 0 {
      assert a + b == b;
    } else {
      assert (a + b)[0] == a[0] && (a + b)[1..] == a[1..] + b;
      DispositionCountAppend(a[1..], b);
    }
  }

  /** Every reject in the run asks the broker not to requeue. */
  predicate NeverRequeues(calls: seq<Call>) {
    forall i :: 0 <= i < |calls| && calls[i].effect.Reject? ==> !calls[i].effect.requeue
  }

  /** Every ack in the run acknowledges one delivery only. */
  predicate AcksSingly(calls: seq<Call>) {
    forall i :: 0 <= i < |calls| && calls[i].effect.Ack? ==> !calls[i].effect.multiple
  }

  /** Every ack and reject in the run is for delivery `tag`. */
  predicate SettlesOnly(calls: seq<Call>, tag: DeliveryTag) {
    forall i :: 0 <= i < |calls| && IsDisposition(calls[i].effect) ==> calls[i].effect.tag == tag
  }

  /** The run makes no ack call. */
  predicate NoAck(calls: seq<Call>) {
    forall i :: 0 <= i < |calls| ==> !calls[i].effect.Ack?
  }

  /** The run makes no reject call. */
  predicate NoReject(calls: seq<Call>) {
    forall i :: 0 <= i < |calls| ==> !calls[i].effect.Reject?
  }

  /** The run makes no audit write. */
  predicate NoWrite(calls: seq<Call>) {
    forall i :: 0 <= i < |calls| ==> !calls[i].effect.HSet?
  }

  /** The only audit write the run attempts is `record`. */
  predicate WritesOnly(calls: seq<Call>, record: Effect) {
    forall i :: 0 <= i < |calls| && calls[i].effect.HSet? ==> calls[i].effect == record
  }

  /** What a call was, with the delivery it concerned and the value it wrote forgotten. */
  datatype EffectKind = WriteKind(hash: string) | AckKind | RejectKind

  function KindOf(e: Effect): EffectKind {
    match e
    case HSet(hash, _, _) => WriteKind(hash)
    case Ack(_, _) => AckKind
    case Reject(_, _) => RejectKind
  }

  /** A call with its delivery, field and value forgotten. */
  datatype Step = Step(kind: EffectKind, ok: bool)

  /** The run with tags, fields and values forgotten: which kinds of call, which completed, and whether it threw. */
  datatype Shape = Shape(steps: seq<Step>, escaped: bool)

  function ShapeOf(run: Run): (s: Shape)
    ensures |s.steps| == |run.calls| && s.escaped == run.escaped
    ensures forall i :: 0 <= i < |run.calls| ==> s.steps[i] == Step(KindOf(run.calls[i].effect), run.calls[i].ok)
  {
    Shape(seq(|run.calls|, i requires 0 <= i < |run.calls| => Step(KindOf(run.calls[i].effect), run.calls[i].ok)), run.escaped)
  }

  /** The audit store after the completed effects, applied in order; acks and rejects leave it alone. */
  function Apply(store: Store, es: seq<Effect>): Store
    decreases |es|
  {
    if |es| == 0 then store
    else
      var next := if es[0].HSet? then HashSet(store, es[0].hash, es[0].field, es[0].value).store else store;
      Apply(next, es[1..])
  }

  /** No effect in `es` writes `field` of `hash`. */
  predicate Untouched(es: seq<Effect>, hash: string, field: string) {
    forall i :: 0 <= i < |es| ==> !(es[i].HSet? && es[i].hash == hash && es[i].field == field)
  }

  /** Fields nobody writes keep their value. */
  lemma {:induction false} ApplyKeepsUntouched(store: Store, es: seq<Effect>, hash: string, field: string)
    requires Untouched(es, hash, field)
    ensures Lookup(Apply(store, es), hash, field) == Lookup(store, hash, field)
    decreases |es|
  {
    if |es| > 0 {
      var next := if es[0].HSet? then HashSet(store, es[0].hash, es[0].field, es[0].value).store else store;
      assert Untouched(es[1..], hash, field) by {
        forall i | 0 <= i < |es[1..]| ensures !(es[1..][i].HSet? && es[1..][i].hash == hash && es[1..][i].field == field) {
          assert es[1..][i] == es[i + 1];
        }
      }
      ApplyKeepsUntouched(next, es[1..], hash, field);
    }
  }

  /** The last write to a field decides its value. */
  lemma {:induction false} ApplyLastWriteWins(store: Store, es: seq<Effect>, i: nat)
    requires i < |es| && es[i].HSet?
    requires Untouched(es[i + 1..], es[i].hash, es[i].field)
    ensures Lookup(Apply(store, es), es[i].hash, es[i].field) == Some(es[i].value)
    decreases |es|
  {
    var next := if es[0].HSet? then HashSet(store, es[0].hash, es[0].field, es[0].value).store else store;
    if i == 0 {
      ApplyKeepsUntouched(next, es[1..], es[0].hash, es[0].field);
    } else {
      assert es[1..][i - 1] == es[i];
      assert es[1..][i - 1 + 1..] == es[i + 1..];
      ApplyLastWriteWins(next, es[1..], i - 1);
    }
  }

  /**
   When every write to a field in a trace stores the same value, the field ends
   with that value if the trace writes it at all, and keeps its old value otherwise.
   */
  lemma {:induction false} ApplyAgreeingWrites(store: Store, es: seq<Effect>, hash: string, field: string, value: string)
    requires forall i :: 0 <= i < |es| && es[i].HSet? && es[i].hash == hash && es[i].field == field ==> es[i].value == value
    ensures HSet(hash, field, value) in es ==> Lookup(Apply(store, es), hash, field) == Some(value)
    ensures HSet(hash, field, value) !in es ==> Lookup(Apply(store, es), hash, field) == Lookup(store, hash, field)
    decreases |es|
  {
    if |es| > 0 {
      var next := if es[0].HSet? then HashSet(store, es[0].hash, es[0].field, es[0].value).store else store;
      assert forall i :: 0 <= i < |es[1..]| ==> es[1..][i] == es[i + 1];
      ApplyAgreeingWrites(next, es[1..], hash, field, value);
      assert es == [es[0]] + es[1..];
      if es[0] == HSet(hash, field, value) {
        if HSet(hash, field, value) !in es[1..] {
          assert Lookup(next, hash, field) == Some(value);
        }
      }
    }
  }
}

=== FILE: main_consumer.dfy ===
/**
 The main-queue consumer's handler for one delivery. It classifies the message
 by a case-insensitive search for the failure marker; a marked message is
 rejected without requeue (so the broker dead-letters it), any other message is
 recorded in the success hash and then acknowledged. Any exception thrown
 inside that block is caught and answered by a reject without requeue; an
 exception thrown by that fallback reject escapes the handler.
 */
module MainConsumer {
  import opened Text
  import opened Deliveries
  import opened AuditStore
  import opened Effects

  /** The substring whose presence, in any letter case, marks a message as failed. */
  const FailureMarker: string := "hata"

  /** The classification: does the message contain the failure marker, ignoring case? */
  predicate IsFailureMessage(message: string) {
    ContainsFolded(message, FailureMarker)
  }

  /** The audit value for a processed delivery: the receipt timestamp, " - ", then the message. */
  function SuccessValue(timestamp: string, message: string): string {
    timestamp + " - " + message
  }

  /** The audit write for a processed delivery, keyed by the tag's decimal string. */
  function SuccessRecord(d: Delivery, timestamp: string): Effect {
    HSet(SuccessHash, ToDecimal(d.tag), SuccessValue(timestamp, d.message))
  }

  /** The calls made inside the guarded block, and whether the last of them threw. */
  datatype Guarded = Guarded(calls: seq<Call>, threw: bool)

  /**
   The block inside the handler's exception guard: the classification, then a
   reject for a marked message, or the success record followed by an ack.
   */
  function GuardedBlock(d: Delivery, timestamp: string, oracle: Oracle): (g: Guarded)
    // the block stops at the first call that throws
    ensures 1 <= |g.calls| <= 2
    ensures forall i :: 0 <= i < |g.calls| - 1 ==> g.calls[i].ok
    ensures g.threw <==> !g.calls[|g.calls| - 1].ok
    // the i-th call completes exactly when the environment lets it
    ensures forall i :: 0 <= i < |g.calls| ==> (g.calls[i].ok <==> OutcomeAt(oracle, i) == Succeeds)
    // when it does not throw, exactly one ack or reject takes effect; when it throws, none does
    ensures DispositionCount(g.calls) == if g.threw then 0 else 1
    ensures NeverRequeues(g.calls) && AcksSingly(g.calls) && SettlesOnly(g.calls, d.tag)
    ensures WritesOnly(g.calls, SuccessRecord(d, timestamp))
    ensures IsFailureMessage(d.message) ==>
      g.calls[0].effect == Reject(d.tag, false) && NoWrite(g.calls) && NoAck(g.calls)
    ensures !IsFailureMessage(d.message) ==> g.calls[0].effect == SuccessRecord(d, timestamp) && NoReject(g.calls)
    ensures !IsFailureMessage(d.message) && OutcomeAt(oracle, 0) == Succeeds ==>
      |g.calls| == 2 && g.calls[1].effect == Ack(d.tag, false)
    ensures forall i :: 0 < i < |g.calls| ==> !g.calls[i].effect.HSet?
    ensures forall i :: 0 <= i < |g.calls| && g.calls[i].effect.Ack? ==>
      0 < i && g.calls[i - 1] == Call(SuccessRecord(d, timestamp), true)
  {
    if IsFailureMessage(d.message) then
      var reject := Invoke(oracle, 0, Reject(d.tag, false));
      Guarded([reject], !reject.ok)
    else
      var write := Invoke(oracle, 0, SuccessRecord(d, timestamp));
      if !write.ok then Guarded([write], true)
      else
        var ack := Invoke(oracle, 1, Ack(d.tag, false));
        DispositionCountAppend([write], [ack]);
        Guarded([write, ack], !ack.ok)
  }

  /**
   The whole handler for one delivery, `timestamp` standing for the receipt
   time and `oracle` for the outcome of each external call.
   */
  function Handle(d: Delivery, timestamp: string, oracle: Oracle): (run: Run)
    ensures 1 <= |run.calls| <= 3
    // never requeues, never batches acks, and only ever settles this delivery
    ensures NeverRequeues(run.calls) && AcksSingly(run.calls) && SettlesOnly(run.calls, d.tag)
    // the only audit write is this delivery's success record, and it is the first call if made at all
    ensures WritesOnly(run.calls, SuccessRecord(d, timestamp))
    ensures forall i :: 0 < i < |run.calls| ==> !run.calls[i].effect.HSet?
    // at most one ack or reject takes effect, and exactly one unless an exception escapes
    ensures DispositionCount(run.calls) <= 1
    ensures !run.escaped <==> DispositionCount(run.calls) == 1
    // a marked message is rejected first, and is neither recorded nor acknowledged
    ensures IsFailureMessage(d.message) ==>
      run.calls[0].effect == Reject(d.tag, false) && NoWrite(run.calls) && NoAck(run.calls)
    // an unmarked message is recorded first
    ensures !IsFailureMessage(d.message) ==> run.calls[0].effect == SuccessRecord(d, timestamp)
  {
    var guarded := GuardedBlock(d, timestamp, oracle);
    if !guarded.threw then Run(guarded.calls, false)
    else
      var fallback := Invoke(oracle, |guarded.calls|, Reject(d.tag, false));
      DispositionCountAppend(guarded.calls, [fallback]);
      Run(guarded.calls + [fallback], !fallback.ok)
  }

  /**
   The order of the handler's calls: an ack is attempted only straight after
   the success record was written; every call that throws is followed by a
   reject without requeue, unless it was that fallback reject itself, whose
   exception then escapes the handler; and nothing else lets one escape.
   */
  lemma HandleFailsClosed(d: Delivery, timestamp: string, oracle: Oracle)
    ensures var run := Handle(d, timestamp, oracle);
      && (forall i :: 0 <= i < |run.calls| && run.calls[i].effect.Ack? ==>
            0 < i && run.calls[i - 1] == Call(SuccessRecord(d, timestamp), true))
      && (forall i :: 0 <= i < |run.calls| && !run.calls[i].ok ==>
            (i + 1 < |run.calls| && run.calls[i + 1].effect == Reject(d.tag, false)) ||
            (i + 1 == |run.calls| && run.escaped && 0 < i && !run.calls[i - 1].ok && run.calls[i].effect.Reject?))
      && (run.escaped ==> 2 <= |run.calls| && !run.calls[|run.calls| - 1].ok)
  {
    var run := Handle(d, timestamp, oracle);
    var ok1 := OutcomeAt(oracle, 1) == Succeeds;
    var ok2 := OutcomeAt(oracle, 2) == Succeeds;
    var reject := Reject(d.tag, false);
    var write := SuccessRecord(d, timestamp);
    var ack := Ack(d.tag, false);
    if IsFailureMessage(d.message) {
      if OutcomeAt(oracle, 0) == Succeeds {
        assert run == Run([Call(reject, true)], false);
      } else {
        assert run == Run([Call(reject, false), Call(reject, ok1)], !ok1);
      }
    } else if OutcomeAt(oracle, 0) == Throws {
      assert run == Run([Call(write, false), Call(reject, ok1)], !ok1);
    } else if ok1 {
      assert run == Run([Call(write, true), Call(ack, true)], false);
    } else {
      assert run == Run([Call(write, true), Call(ack, false), Call(reject, ok2)], !ok2);
    }
  }

  /** A message containing the marker in any letter case is classified as failed, whatever else it holds. */
  lemma MarkedMessagesFail(prefix: string, marker: string, suffix: string)
    requires EqualIgnoringCase(marker, FailureMarker)
    ensures IsFailureMessage(prefix + marker + suffix)
  {
    assert MatchesAt(marker, FailureMarker, 0);
    ContainsInContext(prefix, marker, suffix, FailureMarker);
  }

  /**
   The handler as a decision table: the calls it makes and their outcomes,
   determined by the classification and the first three outcomes of the oracle.
   */
  function DecisionTable(failed: bool, oracle: Oracle): Shape {
    var ok0 := OutcomeAt(oracle, 0) == Succeeds;
    var ok1 := OutcomeAt(oracle, 1) == Succeeds;
    var ok2 := OutcomeAt(oracle, 2) == Succeeds;
    var write := WriteKind(SuccessHash);
    if failed then
      if ok0 then Shape([Step(RejectKind, true)], false)
      else Shape([Step(RejectKind, false), Step(RejectKind, ok1)], !ok1)
    else if !ok0 then Shape([Step(write, false), Step(RejectKind, ok1)], !ok1)
    else if ok1 then Shape([Step(write, true), Step(AckKind, true)], false)
    else Shape([Step(write, true), Step(AckKind, false), Step(RejectKind, ok2)], !ok2)
  }

  /** The handler follows the decision table. */
  lemma HandleFollowsTable(d: Delivery, timestamp: string, oracle: Oracle)
    ensures ShapeOf(Handle(d, timestamp, oracle)) == DecisionTable(IsFailureMessage(d.message), oracle)
  {
    var run := Handle(d, timestamp, oracle);
    var ok0 := OutcomeAt(oracle, 0) == Succeeds;
    var ok1 := OutcomeAt(oracle, 1) == Succeeds;
    var ok2 := OutcomeAt(oracle, 2) == Succeeds;
    var reject := Reject(d.tag, false);
    var write := SuccessRecord(d, timestamp);
    var ack := Ack(d.tag, false);
    if IsFailureMessage(d.message) {
      if ok0 {
        assert run == Run([Call(reject, true)], false);
      } else {
        assert run == Run([Call(reject, false), Call(reject, ok1)], !ok1);
      }
    } else if !ok0 {
      assert run == Run([Call(write, false), Call(reject, ok1)], !ok1);
    } else if ok1 {
      assert run == Run([Call(write, true), Call(ack, true)], false);
    } else {
      assert run == Run([Call(write, true), Call(ack, false), Call(reject, ok2)], !ok2);
    }
    var s := ShapeOf(run);
    var t := DecisionTable(IsFailureMessage(d.message), oracle);
    assert s.steps == t.steps;
  }

  /**
   Classification looks only at the message, and ignores its letter case: two
   deliveries whose messages differ at most in case go through the same calls,
   with the same outcomes, whatever their tags.
   */
  lemma ClassificationIgnoresTagAndCase(m1: string, m2: string, t1: DeliveryTag, t2: DeliveryTag,
                                        timestamp: string, oracle: Oracle)
    requires EqualIgnoringCase(m1, m2)
    ensures IsFailureMessage(m1) <==> IsFailureMessage(m2)
    ensures ShapeOf(Handle(Delivery(m1, t1), timestamp, oracle)) == ShapeOf(Handle(Delivery(m2, t2), timestamp, oracle))
  {
    CaseBlindText(m1, m2, FailureMarker);
    HandleFollowsTable(Delivery(m1, t1), timestamp, oracle);
    HandleFollowsTable(Delivery(m2, t2), timestamp, oracle);
  }

  /**
   What the handler leaves in the audit store: a marked message, or an unmarked
   one whose write threw, leaves it unchanged; otherwise the success hash holds
   the record under the tag's decimal string. Nothing else changes either way.
   */
  lemma MainAudit(store: Store, d: Delivery, timestamp: string, oracle: Oracle)
    ensures var after := Apply(store, Completed(Handle(d, timestamp, oracle).calls));
      && (IsFailureMessage(d.message) || OutcomeAt(oracle, 0) == Throws ==> after == store)
      && (!IsFailureMessage(d.message) && OutcomeAt(oracle, 0) == Succeeds ==>
            Lookup(after, SuccessHash, ToDecimal(d.tag)) == Some(SuccessValue(timestamp, d.message)))
      && (forall h, f :: (h != SuccessHash || f != ToDecimal(d.tag)) ==> Lookup(after, h, f) == Lookup(store, h, f))
  {
    var run := Handle(d, timestamp, oracle);
    var es := Completed(run.calls);
    var record := SuccessRecord(d, timestamp);
    forall i | 0 <= i < |es| && es[i].HSet?
      ensures es[i] == record
    {
      assert es[i] in es;
    }
    forall h, f | h != SuccessHash || f != ToDecimal(d.tag)
      ensures Lookup(Apply(store, es), h, f) == Lookup(store, h, f)
    {
      ApplyKeepsUntouched(store, es, h, f);
    }
    ApplyAgreeingWrites(store, es, SuccessHash, ToDecimal(d.tag), record.value);
    if IsFailureMessage(d.message) || OutcomeAt(oracle, 0) == Throws {
      assert record !in es;
      forall i | 0 <= i < |es|
        ensures !es[i].HSet?
      {
        assert es[i] in es;
      }
      NoWriteLeavesStore(store, es);
    } else {
      assert record in es;
    }
  }

  /** A trace without audit writes leaves the store as it was. */
  lemma {:induction false} NoWriteLeavesStore(store: Store, es: seq<Effect>)
    requires forall i :: 0 <= i < |es| ==> !es[i].HSet?
    ensures Apply(store, es) == store
    decreases |es|
  {
    if |es| > 0 {
      assert forall i :: 0 <= i < |es[1..]| ==> es[1..][i] == es[i + 1];
      NoWriteLeavesStore(store, es[1..]);
    }
  }
}

=== FILE: pipeline.dfy ===
/**
 The two handlers together, and concrete deliveries through them. The
 broker's dead-letter routing itself is not modelled: a rejected message
 reaches the dead-letter consumer as a new delivery, with a fresh tag on the
 shared channel, given here as an input.
 */
module Pipeline {
  import opened Text
  import opened Deliveries
  import opened AuditStore
  import opened Effects
  import Main = MainConsumer
  import Dlq = DeadLetterConsumer

  /** An oracle under which every external call succeeds. */
  const AllSucceed: Oracle := []

  /**
   A marked message that the main consumer settles (no exception escapes) is
   rejected without requeue; once the broker dead-letters it, the dead-letter
   consumer reviews it: the success hash is left exactly as it was, the
   reviewed hash gains the review record, and the copy is acked unless the ack
   itself throws.
   */
  lemma MarkedMessageEndsReviewed(store: Store, m: string, mainTag: DeliveryTag, dlqTag: DeliveryTag,
                                  ts1: string, ts2: string, o1: Oracle, o2: Oracle)
    requires Main.IsFailureMessage(m)
    requires !Main.Handle(Delivery(m, mainTag), ts1, o1).escaped
    requires OutcomeAt(o2, 0) == Succeeds
    ensures var mainRun := Main.Handle(Delivery(m, mainTag), ts1, o1);
      var afterMain := Apply(store, Completed(mainRun.calls));
      var dlqRun := Dlq.Handle(Delivery(m, dlqTag), ts2, o2);
      var afterDlq := Apply(afterMain, Completed(dlqRun.calls));
      && Reject(mainTag, false) in Completed(mainRun.calls)
      && afterMain == store
      && (Ack(dlqTag, false) in Completed(dlqRun.calls) <==> OutcomeAt(o2, 1) == Succeeds)
      && Lookup(afterDlq, ReviewedHash, ToDecimal(dlqTag)) == Some(Dlq.ReviewValue(ts2, m))
      && (forall f :: Lookup(afterDlq, SuccessHash, f) == Lookup(store, SuccessHash, f))
  {
    var reject := Reject(mainTag, false);
    var mainRun := Main.Handle(Delivery(m, mainTag), ts1, o1);
    if OutcomeAt(o1, 0) == Succeeds {
      assert mainRun.calls == [Call(reject, true)];
    } else {
      assert mainRun.calls == [Call(reject, false), Call(reject, true)];
    }
    assert mainRun.calls[|mainRun.calls| - 1] == Call(reject, true);
    Main.MainAudit(store, Delivery(m, mainTag), ts1, o1);
    Dlq.DeadLetterAudit(store, Delivery(m, dlqTag), ts2, o2);
  }

  /** A message carrying the marker in upper case, lower case or mixed case is classified as failed. */
  lemma MarkerCaseVariantsFail(prefix: string, suffix: string)
    ensures Main.IsFailureMessage(prefix + "hata" + suffix)
    ensures Main.IsFailureMessage(prefix + "HATA" + suffix)
    ensures Main.IsFailureMessage(prefix + "Hata" + suffix)
  {
    Main.MarkedMessagesFail(prefix, "hata", suffix);
    Main.MarkedMessagesFail(prefix, "HATA", suffix);
    Main.MarkedMessagesFail(prefix, "Hata", suffix);
  }

  /** A failed order: rejected without requeue, nothing recorded, then reviewed from the dead-letter queue and acked. */
  lemma FailedOrderScenario(store: Store, mainTag: DeliveryTag, dlqTag: DeliveryTag, ts1: string, ts2: string)
    ensures var m := "order #1 failed: hata occurred";
      && Completed(Main.Handle(Delivery(m, mainTag), ts1, AllSucceed).calls) == [Reject(mainTag, false)]
      && Completed(Dlq.Handle(Delivery(m, dlqTag), ts2, AllSucceed).calls)
         == [HSet(ReviewedHash, ToDecimal(dlqTag), ts2 + " - DLQ REVIEWED: " + m), Ack(dlqTag, false)]
  {
    var m := "order #1 failed: hata occurred";
    assert m == "order #1 failed: " + "hata" + " occurred";
    MarkerCaseVariantsFail("order #1 failed: ", " occurred");
  }

  /** "order #2 shipped" does not contain the marker: its only `h` is followed by `i`. */
  lemma ShippedOrderIsClean()
    ensures !Main.IsFailureMessage("order #2 shipped")
  {
    var m := "order #2 shipped";
    var marker := Main.FailureMarker;
    // the first character already differs at every offset but 10, where "hi" is not "ha"
    assert !SameIgnoringCase(m[0], marker[0]) && !SameIgnoringCase(m[1], marker[0]);
    assert !SameIgnoringCase(m[2], marker[0]) && !SameIgnoringCase(m[3], marker[0]);
    assert !SameIgnoringCase(m[4], marker[0]) && !SameIgnoringCase(m[5], marker[0]);
    assert !SameIgnoringCase(m[6], marker[0]) && !SameIgnoringCase(m[7], marker[0]);
    assert !SameIgnoringCase(m[8], marker[0]) && !SameIgnoringCase(m[9], marker[0]);
    assert !SameIgnoringCase(m[11], marker[0]) && !SameIgnoringCase(m[12], marker[0]);
    assert !SameIgnoringCase(m[11], marker[1]);
    forall i: nat | i + |marker| <= |m|
      ensures !MatchesAt(m, marker, i)
    {
      if i == 10 {
        assert !SameIgnoringCase(m[i + 1], marker[1]);
      } else {
        assert !SameIgnoringCase(m[i], marker[0]);
      }
    }
  }

  /** When every call succeeds, an unmarked message is recorded under its tag and then acknowledged, and nothing else happens. */
  lemma CleanMessageRecordedAndAcked(d: Delivery, ts: string)
    requires !Main.IsFailureMessage(d.message)
    ensures Completed(Main.Handle(d, ts, AllSucceed).calls) == [Main.SuccessRecord(d, ts), Ack(d.tag, false)]
  {
    var write := Call(Main.SuccessRecord(d, ts), true);
    var ack := Call(Ack(d.tag, false), true);
    assert Main.Handle(d, ts, AllSucceed).calls == [write] + [ack];
    CompletedAppend([write], [ack]);
    CompletedSingle(write);
    CompletedSingle(ack);
  }

  /** A shipped order: recorded under its tag in the success hash, then acknowledged. */
  lemma ShippedOrderScenario(tag: DeliveryTag, ts: string)
    ensures var m := "order #2 shipped";
      Completed(Main.Handle(Delivery(m, tag), ts, AllSucceed).calls)
      == [HSet(SuccessHash, ToDecimal(tag), ts + " - order #2 shipped"), Ack(tag, false)]
  {
    var d := Delivery("order #2 shipped", tag);
    assert Main.SuccessValue(ts, d.message) == ts + " - order #2 shipped";
    ShippedOrderIsClean();
    CleanMessageRecordedAndAcked(d, ts);
  }

  /** The store is unreachable for a shipped order: the write throws and the delivery is rejected, fail-closed. */
  lemma StoreDownScenario(store: Store, tag: DeliveryTag, ts: string)
    ensures var m := "order #2 shipped";
      var run := Main.Handle(Delivery(m, tag), ts, [Throws]);
      && Completed(run.calls) == [Reject(tag, false)]
      && Apply(store, Completed(run.calls)) == store
  {
    var d := Delivery("order #2 shipped", tag);
    var write := Call(Main.SuccessRecord(d, ts), false);
    var reject := Call(Reject(tag, false), true);
    ShippedOrderIsClean();
    assert Main.Handle(d, ts, [Throws]).calls == [write] + [reject];
    CompletedAppend([write], [reject]);
    CompletedSingle(write);
    CompletedSingle(reject);
    Main.MainAudit(store, d, ts, [Throws]);
  }

  /**
   The record is written but the ack throws: the delivery is rejected anyway,
   so the success hash holds a record for a delivery that was dead-lettered.
   */
  lemma AckFailureAfterRecord(store: Store, d: Delivery, ts: string)
    requires !Main.IsFailureMessage(d.message)
    ensures var run := Main.Handle(d, ts, [Succeeds, Throws]);
      && Completed(run.calls) == [Main.SuccessRecord(d, ts), Reject(d.tag, false)]
      && Lookup(Apply(store, Completed(run.calls)), SuccessHash, ToDecimal(d.tag))
         == Some(Main.SuccessValue(ts, d.message))
  {
    var write := Call(Main.SuccessRecord(d, ts), true);
    var ack := Call(Ack(d.tag, false), false);
    var reject := Call(Reject(d.tag, false), true);
    assert Main.Handle(d, ts, [Succeeds, Throws]).calls == [write, ack] + [reject];
    assert [write, ack] == [write] + [ack];
    CompletedAppend([write, ack], [reject]);
    CompletedAppend([write], [ack]);
    CompletedSingle(write);
    CompletedSingle(ack);
    CompletedSingle(reject);
    Main.MainAudit(store, d, ts, [Succeeds, Throws]);
  }

  /**
   The same tag processed twice (tags are only unique within one channel
   session): after two clean deliveries with that tag, the success hash holds
   the second record, and the second write finds the field already present.
   */
  lemma RedeliveredTagOverwrites(store: Store, d1: Delivery, d2: Delivery, ts1: string, ts2: string)
    requires d1.tag == d2.tag
    requires !Main.IsFailureMessage(d1.message) && !Main.IsFailureMessage(d2.message)
    ensures var field := ToDecimal(d2.tag);
      var after1 := Apply(store, Completed(Main.Handle(d1, ts1, AllSucceed).calls));
      var after2 := Apply(after1, Completed(Main.Handle(d2, ts2, AllSucceed).calls));
      && !HashSet(after1, SuccessHash, field, Main.SuccessValue(ts2, d2.message)).created
      && Lookup(after2, SuccessHash, field) == Some(Main.SuccessValue(ts2, d2.message))
  {
    var after1 := Apply(store, Completed(Main.Handle(d1, ts1, AllSucceed).calls));
    Main.MainAudit(store, d1, ts1, AllSucceed);
    Main.MainAudit(after1, d2, ts2, AllSucceed);
  }

  /** Deliveries with different tags never overwrite each other's record. */
  lemma DistinctTagsKeepBothRecords(store: Store, d1: Delivery, d2: Delivery, ts1: string, ts2: string)
    requires d1.tag != d2.tag
    requires !Main.IsFailureMessage(d1.message) && !Main.IsFailureMessage(d2.message)
    ensures var after1 := Apply(store, Completed(Main.Handle(d1, ts1, AllSucceed).calls));
      var after2 := Apply(after1, Completed(Main.Handle(d2, ts2, AllSucceed).calls));
      && Lookup(after2, SuccessHash, ToDecimal(d1.tag)) == Some(Main.SuccessValue(ts1, d1.message))
      && Lookup(after2, SuccessHash, ToDecimal(d2.tag)) == Some(Main.SuccessValue(ts2, d2.message))
  {
    var after1 := Apply(store, Completed(Main.Handle(d1, ts1, AllSucceed).calls));
    Main.MainAudit(store, d1, ts1, AllSucceed);
    Main.MainAudit(after1, d2, ts2, AllSucceed);
    TagFieldsDistinct(d1.tag, d2.tag);
  }
}

=== FILE: text.dfy ===
/**
 The case-insensitive substring test the main consumer uses to classify a
 message. The source asks the runtime for a culture-aware, case-ignoring
 `Contains`; this module approximates it with an ASCII case fold. The marker
 searched for is made of ASCII letters other than `i`, whose case mapping is
 the same in every culture; how a culture treats other characters is not
 modelled.
 */
module Text {

  /** Folds an ASCII upper-case letter to lower case; every other character is left alone. */
  function Fold(c: char): (r: char)
    ensures !('A' <= r <= 'Z')
    ensures 'a' <= c <= 'z' ==> r == c
    ensures r == c || (c as int) + 32 == r as int
  {
    if 'A' <= c <= 'Z' then (c as int + 32) as char else c
  }

  /** Two characters that differ at most in ASCII letter case. */
  predicate SameIgnoringCase(a: char, b: char) {
    Fold(a) == Fold(b)
  }

  /** Two texts that differ at most in the ASCII letter case of their characters. */
  predicate EqualIgnoringCase(a: string, b: string) {
    |a| == |b| && forall i :: 0 <= i < |a| ==> SameIgnoringCase(a[i], b[i])
  }

  /** `pattern` occurs in `text` at offset `i`, ignoring case. */
  predicate MatchesAt(text: string, pattern: string, i: nat)
    requires i + |pattern| <= |text|
  {
    forall k :: 0 <= k < |pattern| ==> SameIgnoringCase(text[i + k], pattern[k])
  }

  /** The specification of the test: some offset of `text` holds `pattern`, ignoring case. */
  ghost predicate ContainsIgnoringCase(text: string, pattern: string) {
    exists i: nat :: i + |pattern| <= |text| && MatchesAt(text, pattern, i)
  }

  /** Dropping a first character that does not start a match keeps the answer. */
  lemma ContainsAfterFirst(text: string, pattern: string)
    requires |pattern| <= |text| && 0 < |text|
    requires !MatchesAt(text, pattern, 0)
    ensures ContainsIgnoringCase(text, pattern) <==> ContainsIgnoringCase(text[1..], pattern)
  {
    var rest := text[1..];
    if ContainsIgnoringCase(text, pattern) {
      var i: nat :| i + |pattern| <= |text| && MatchesAt(text, pattern, i);
      assert i != 0;
      assert forall k :: 0 <= k < |pattern| ==> SameIgnoringCase(rest[i - 1 + k], pattern[k]);
      assert MatchesAt(rest, pattern, i - 1);
    }
    if ContainsIgnoringCase(rest, pattern) {
      var j: nat :| j + |pattern| <= |rest| && MatchesAt(rest, pattern, j);
      assert forall k :: 0 <= k < |pattern| ==> SameIgnoringCase(text[j + 1 + k], pattern[k]);
      assert MatchesAt(text, pattern, j + 1);
    }
  }

  /** The executable test: scans `text` from the left for the first offset holding `pattern`. */
  function ContainsFolded(text: string, pattern: string): (r: bool)
    ensures r <==> ContainsIgnoringCase(text, pattern)
    decreases |text|
  {
    if |text| < |pattern| then false
    else if MatchesAt(text, pattern, 0) then true
    else
      ContainsAfterFirst(text, pattern);
      ContainsFolded(text[1..], pattern)
  }

  /** Case does not matter: texts equal up to letter case contain the same patterns. */
  lemma CaseBlindText(a: string, b: string, pattern: string)
    requires EqualIgnoringCase(a, b)
    ensures ContainsIgnoringCase(a, pattern) <==> ContainsIgnoringCase(b, pattern)
  {
    if ContainsIgnoringCase(a, pattern) {
      var i: nat :| i + |pattern| <= |a| && MatchesAt(a, pattern, i);
      assert forall k :: 0 <= k < |pattern| ==> SameIgnoringCase(b[i + k], pattern[k]);
      assert MatchesAt(b, pattern, i);
    }
    if ContainsIgnoringCase(b, pattern) {
      var i: nat :| i + |pattern| <= |b| && MatchesAt(b, pattern, i);
      assert forall k :: 0 <= k < |pattern| ==> SameIgnoringCase(a[i + k], pattern[k]);
      assert MatchesAt(a, pattern, i);
    }
  }

  /** A text that contains a pattern keeps containing it inside any longer text. */
  lemma ContainsInContext(prefix: string, text: string, suffix: string, pattern: string)
    requires ContainsIgnoringCase(text, pattern)
    ensures ContainsIgnoringCase(prefix + text + suffix, pattern)
  {
    var whole := prefix + text + suffix;
    var i: nat :| i + |pattern| <= |text| && MatchesAt(text, pattern, i);
    assert forall k :: 0 <= k < |pattern| ==> SameIgnoringCase(whole[|prefix| + i + k], pattern[k]);
    assert MatchesAt(whole, pattern, |prefix| + i);
  }
}
